=== FILE: README.md ===
# Wallet ledger model

A Dafny model of the core of a small wallet application: a ledger of users, one
balance row per user (integer minor units), an append-only log of peer-to-peer
transfers, and on-ramp (bank to wallet) deposits whose status is Processing,
Success or Failure. Storage, sessions and rendering are abstracted away: the
store is an immutable `Ledger.State`, the signed-in user is an explicit optional
sender id, and the clock is a parameter.

Modules, following the program's structure:

- `Ledger` (`ledger.dfy`): the tables, the lookups by phone number, by user id and
  by balance owner, the `decrement` update, and the total of all balances.
- `Transfer` (`transfer.dfy`): the `p2pTransfer` server action as one atomic,
  all-or-nothing state transition returning a message and the new state. It is
  modelled as the code is written: the sender is debited, one record is appended,
  the recipient is never credited, and a transfer to one's own number is allowed.
- `Balance` (`balance.dfy`): the locked amount (sum over the user's Processing
  deposits), the `reduce` that adds it up, and the available/locked balance card.
- `History` (`history.dfy`): the transfer history with direction and counterparty,
  shared by the transactions page and the dashboard, and the deposit history.
- `OnRampView` (`onramp_view.dfy`): the newest-first sort, the empty-list branch and
  the status colours of the recent-deposits card.
- `Dashboard` (`dashboard.dfy`): the greeting name and the balance/locked tiles.
- `LedgerProperties` (`properties.dfy`): how a transfer shows up on balance cards and
  in histories, and two worked scenarios.

A design in which the transfer also credits the recipient in the same atomic step
is not what the code does; the model follows the code, and
`Transfer.SuccessLowersTotal` states the consequence (the sum of all balances drops
by the amount on every successful transfer).

The funds check of the transfer compares the amount with the raw stored balance, not
with the available balance the balance card shows (raw minus what is locked in
Processing deposits). A transfer can therefore spend locked money and leave the
available balance negative; `LedgerProperties.TransferCanSpendLocked` states when, and
`LedgerProperties.ScenarioSpendsLocked` gives an instance.

## Model

| member | source | states |
|---|---|---|
| Ledger.FindByNumber | apps/user-app/app/lib/actions/p2Transfer.ts:20-22 | the lookup by phone number finds a user holding that number, and finds none exactly when no user holds it |
| Ledger.FindByNumberUnique | apps/user-app/app/lib/actions/p2Transfer.ts:20-26 | with unique phone numbers, looking up a user's number yields that very user |
| Ledger.BalanceOf | apps/user-app/app/lib/actions/p2Transfer.ts:32-34 | a user has a balance reading exactly when some balance row belongs to that user |
| Ledger.BalanceOfReadsRow | apps/user-app/app/lib/actions/p2Transfer.ts:32-36 | the reading the funds check compares is always the amount stored in a balance row of that user |
| Ledger.FirstRowIsBalance | apps/user-app/app/lib/actions/p2Transfer.ts:32-36 | with `userId` a unique key of the balance table, the reading for a row's owner is that row's amount |
| Ledger.Decrement | apps/user-app/app/lib/actions/p2Transfer.ts:40-44 | the `decrement` update lowers the sender's row by the amount and keeps every other row and the row order |
| Ledger.BalanceOfDecrement | apps/user-app/app/lib/actions/p2Transfer.ts:40-44 | after the update the sender reads the amount less and every other user reads as before |
| Ledger.TotalDecrement | apps/user-app/app/lib/actions/p2Transfer.ts:40-44 | with unique balance owners, the update lowers the sum of all balances by exactly the amount |
| Ledger.NameOf | apps/user-app/components/Transaction.tsx:54-57 | when a user with the id exists the included name is the nullable name of such a user; a non-null name always comes from a user with the id; null when no user has it |
| Ledger.NameOfFound | apps/user-app/components/Transaction.tsx:54-66 | with unique user ids, the name included for a user's id is exactly that user's nullable name |
| Transfer.Text | apps/user-app/app/lib/actions/p2Transfer.ts:9-57 | the five response texts; the text is "Transfer successful" exactly for the success message, and never empty |
| Transfer.TextsDistinct | apps/user-app/app/lib/actions/p2Transfer.ts:9-57 | different outcomes reach the caller as different texts |
| Transfer.P2PTransfer | apps/user-app/app/lib/actions/p2Transfer.ts:7-62 | every refusal returns the state unchanged; success keeps users and deposits and appends exactly one record after the existing log |
| Transfer.InvalidInputRejected | apps/user-app/app/lib/actions/p2Transfer.ts:8-10 | an empty phone number or a zero or negative amount gives "Invalid input data" and no change |
| Transfer.UnauthenticatedRejected | apps/user-app/app/lib/actions/p2Transfer.ts:12-17 | with valid input and no signed-in sender the answer is "Authentication failed" and no change |
| Transfer.UnknownRecipientRejected | apps/user-app/app/lib/actions/p2Transfer.ts:20-26 | a number no user holds gives "User not found" and no change |
| Transfer.InsufficientFundsRejected | apps/user-app/app/lib/actions/p2Transfer.ts:28-38 | a sender without a balance row or holding less than the amount gets "Insufficient funds"; no balance changes and no record is appended |
| Transfer.SucceedsIff | apps/user-app/app/lib/actions/p2Transfer.ts:8-57 | "Transfer successful" exactly when the input is valid, a sender is signed in, the number is known and the sender's row holds at least the amount (equality allowed) |
| Transfer.SuccessAppendsRecord | apps/user-app/app/lib/actions/p2Transfer.ts:46-54 | on success exactly one record naming the sender, the user holding the number and the amount is appended at the end of the log |
| Transfer.SuccessDebitsSender | apps/user-app/app/lib/actions/p2Transfer.ts:36-44 | on success the sender has a row, and it drops by exactly the amount and stays non-negative |
| Transfer.SuccessKeepsOtherRows | apps/user-app/app/lib/actions/p2Transfer.ts:40-54 | on success every row other than the sender's, the recipient's included, reads as before |
| Transfer.SuccessLowersTotal | apps/user-app/app/lib/actions/p2Transfer.ts:40-54 | because nothing is credited, a successful transfer lowers the total of all balances by the amount |
| Transfer.PreservesInvariants | apps/user-app/app/lib/actions/p2Transfer.ts:36-54 | every call keeps unique keys, increasing transfer ids and non-negative balances |
| Transfer.NoDoubleSpend | apps/user-app/app/lib/actions/p2Transfer.ts:28-44 | two transfers from one sender whose amounts together exceed the sender's balance cannot both succeed: after the first, the second is refused for insufficient funds and changes nothing |
| Transfer.SelfTransferAllowed | apps/user-app/app/lib/actions/p2Transfer.ts:20-54 | a transfer to one's own number with enough funds succeeds and logs a record with the sender on both ends |
| Balance.ProcessingDeposits | apps/user-app/components/Transaction.tsx:25-30 | the query keeps exactly the user's Processing deposits, each as often as it occurs |
| Balance.ReduceAmounts | apps/user-app/components/Transaction.tsx:33-36 | the left-to-right reduce from 0 yields the sum of the queried amounts |
| Balance.SumAmountsPermutation | apps/user-app/components/Transaction.tsx:25-36 | the locked sum does not depend on the order the store returns the deposits in |
| Balance.LockedAppend | apps/user-app/components/Dashboard.tsx:64-75 | a new deposit adds its amount to its owner's locked amount while Processing and changes no other user's |
| Balance.GetBalance | apps/user-app/components/Transaction.tsx:10-43 | no balance row gives {0, 0} whatever is Processing; otherwise locked is the Processing sum and available plus locked is the raw balance, with no clamping |
| History.InvolvingTransfers | apps/user-app/components/Transaction.tsx:50-58 | the query keeps exactly the transfers the user sent or received, each as often as it occurs |
| History.RowOf | apps/user-app/components/Transaction.tsx:60-67 | id, amount and time are carried over; "received" exactly when the user is the recipient; the name is the sender's when received and the recipient's when sent |
| History.P2PHistory | apps/user-app/components/Transaction.tsx:45-68 | the history has exactly as many rows as the user has transfers, each the labelled row of the matching transfer, in the table's sequence order |
| History.HistoryComplete | apps/user-app/components/Dashboard.tsx:12-20 | every transfer the user sent or received appears in the history |
| History.HistorySound | apps/user-app/components/Dashboard.tsx:12-28 | every history row is the row of a transfer the user took part in |
| History.CounterpartyIsOtherParty | apps/user-app/components/Dashboard.tsx:22-28 | the counterparty is the user only on a self-transfer, and a "sent" row means the user sent it to someone else |
| History.UserDeposits | apps/user-app/components/Transaction.tsx:74-78 | the query keeps exactly the user's deposits, each as often as it occurs |
| History.OnRampHistory | apps/user-app/components/Transaction.tsx:70-87 | the deposit history has exactly as many rows as the user has deposits, each a copy of the matching deposit's time, amount, status and provider, in the table's sequence order |
| History.OnRampHistoryExactly | apps/user-app/components/Transaction.tsx:74-86 | each of the user's deposits appears with time, amount, status and provider unchanged, and no other user's does |
| OnRampView.Insert | apps/user-app/components/OnRampTransactions.tsx:20 | inserting into a newest-first list keeps it newest first and adds exactly the one row |
| OnRampView.SortByTimeDesc | apps/user-app/components/OnRampTransactions.tsx:20 | the sorted copy is ordered by time, non-increasing, and is a permutation of the input with the same length |
| OnRampView.OnRampCard | apps/user-app/components/OnRampTransactions.tsx:13-20 | the "No Recent transactions" branch is taken exactly for an empty list; otherwise the rows are shown sorted |
| OnRampView.StatusColor | apps/user-app/components/OnRampTransactions.tsx:32-43 | Success is green, Failure red, Processing yellow, any other text gray |
| OnRampView.StoredStatusesDistinctColours | apps/user-app/components/OnRampTransactions.tsx:32-43 | each status a deposit can hold gets its own colour and never gray |
| Dashboard.UpperChar | apps/user-app/components/Dashboard.tsx:36 | lower-case letters a-z become the matching capital; other characters are kept |
| Dashboard.CapitalizeFirstLetter | apps/user-app/components/Dashboard.tsx:35-37 | a null or empty name gives "User"; otherwise the first character is upper-cased, the rest kept, the length preserved (for the modelled ASCII upper-casing) |
| Dashboard.CapitalizeIdempotent | apps/user-app/components/Dashboard.tsx:35-37 | capitalising a greeting again changes nothing |
| Dashboard.DashboardTiles | apps/user-app/components/Dashboard.tsx:63-80 | the raw balance defaults to 0 without a row; the locked amount is the Processing sum whether or not a row exists |
| Dashboard.DashboardMatchesBalanceCard | apps/user-app/components/Dashboard.tsx:79 | with a row, the dashboard's balance is the card's available plus locked and the locked amounts agree; without one the card shows {0, 0} while the dashboard shows the locked sum |
| LedgerProperties.TransferOnSenderCard | apps/user-app/app/lib/actions/p2Transfer.ts:40-44 | a successful transfer lowers the sender's available balance by the amount and keeps the sender's locked amount |
| LedgerProperties.TransferCanSpendLocked | apps/user-app/app/lib/actions/p2Transfer.ts:32-44 | the funds check reads the raw amount, so after a successful transfer the sender's available amount (raw minus locked) is negative exactly when it was below the amount before |
| LedgerProperties.TransferOnOtherCards | apps/user-app/app/lib/actions/p2Transfer.ts:40-54 | a successful transfer leaves every other user's balance card, the recipient's too, unchanged |
| LedgerProperties.InvolvingAppend | apps/user-app/components/Transaction.tsx:50-58 | a record appended to the log is appended to the query answer exactly when the user took part in it |
| LedgerProperties.UserDepositsAppend | apps/user-app/components/Transaction.tsx:74-78 | a deposit appended to the table is appended to the user's query answer exactly when it is that user's, in the table's sequence order |
| LedgerProperties.HistoryAppend | apps/user-app/components/Transaction.tsx:60-67 | a record appended to the log adds its row at the end of the history of each user who took part in it |
| LedgerProperties.TransferOnHistories | apps/user-app/app/lib/actions/p2Transfer.ts:46-54 | after a transfer the sender's history ends with a "sent" row (received on a self-transfer), the recipient's with a "received" row, and other histories are unchanged |
| LedgerProperties.ScenarioTransfer | apps/user-app/app/lib/actions/p2Transfer.ts:28-57 | 3000 sent from 10000 leaves the sender 7000, the recipient's row at 0 and one record |
| LedgerProperties.ScenarioLocked | apps/user-app/components/Transaction.tsx:20-42 | 2000 stored with one Processing deposit of 2000 shows 0 available and 2000 locked |
| LedgerProperties.ScenarioSpendsLocked | apps/user-app/app/lib/actions/p2Transfer.ts:28-57 | with 2000 stored and all of it locked by a Processing deposit, the card shows 0 available, the transfer of 2000 still succeeds and the card then shows -2000 |

## Left out

- Database access, `getServerSession` and the auth options: the store is a value and the signed-in user an optional id passed in. `Number(...)` conversion of the session id is not modelled; the id is already an integer. User ids are positive auto-increment keys, so the source's falsy-id check (a 0 or empty id) is read as "no session" (`None`); a `Some(0)` sender is not rejected by the model.
- The `SELECT ... FOR UPDATE` row lock and all concurrency: the transaction block is one atomic step, so interleavings are outside the model.
- The `catch` path for storage failures (`error.message || "Transfer failed"`): the only error thrown inside the modelled transaction is "Insufficient funds".
- JavaScript value checks in the input validation (`typeof`, NaN, fractional amounts): amounts are integers and the phone number is a string.
- Division by 100, `toFixed`, date and locale formatting: all amounts stay in integer minor units, all times integer milliseconds.
- JSX rendering, including the dashboard's dot colours (Dashboard.tsx:126-131), the P2P list labels and the app bar.
- `Promise.all`, the user count and the store-side `orderBy` of the dashboard queries; only the in-code sort of the deposit card is modelled.
- Row order of `findMany` without `orderBy` (Transaction.tsx:25-30, 50-58, 74-78; Dashboard.tsx:12-20, 64-69): the store leaves it unspecified, and a row updated in place may come back elsewhere. The model reads it as the table's sequence order. The multiset contracts of the filters, `HistoryComplete`, `HistorySound`, `OnRampHistoryExactly` and the locked sum (by `SumAmountsPermutation`) hold for any order; the "at the end" statements of `InvolvingAppend`, `UserDepositsAppend`, `HistoryAppend` and `TransferOnHistories`, and the row order of `P2PHistory` and `OnRampHistory`, describe the model's choice.
- Transfer.P2PTransfer: the record id comes from a counter in the state standing for the store's auto-increment key, and the timestamp from the `now` parameter.
- Dashboard.CapitalizeFirstLetter: the length is preserved only because upper-casing is ASCII-only here (see the next line); in JavaScript `"ßa"` becomes `"SSa"`.
- Dashboard.UpperChar: only ASCII a-z are upper-cased; JavaScript's `toUpperCase` also maps other Unicode letters (and some to two characters).
- OnRampView.SortByTimeDesc: stability (rows with equal times keep their input order, as JavaScript's sort guarantees) is not stated. Sorting on a copy is implicit: sequences are values, so the input cannot change.
- Deposit ids and tokens, and the settlement of deposits (moving them out of Processing), are not part of the modelled code.

=== FILE: balance.dfy ===
/**
 The balance projection: the amount locked in on-ramp deposits that are still
 Processing, and the available/locked pair shown on the balance card.
 */
module Balance {
  import opened Ledger

  /** Whether a deposit is one of user `u`'s deposits still being processed. */
  predicate IsLocking(d: Deposit, u: int) {
    d.userId == u && d.status == Processing
  }

  /** The store query for user `u`'s Processing deposits, read in the table's sequence order (the store leaves it unspecified). */
  function ProcessingDeposits(deposits: seq<Deposit>, u: int): (r: seq<Deposit>)
    ensures |r| <= |deposits|
    ensures forall i :: 0 <= i < |r| ==> IsLocking(r[i], u)
    ensures forall d :: multiset(r)[d] == (if IsLocking(d, u) then multiset(deposits)[d] else 0)
  {
    if |deposits| == 0 then []
    else
      var last := deposits[|deposits| - 1];
      var rest := ProcessingDeposits(deposits[..|deposits| - 1], u);
      assert deposits == deposits[..|deposits| - 1] + [last];
      if IsLocking(last, u) then rest + [last] else rest
  }

  /** The sum of the amounts of `deposits`, added from the first to the last. */
  function SumAmounts(deposits: seq<Deposit>): int {
    if |deposits| == 0 then 0
    else SumAmounts(deposits[..|deposits| - 1]) + deposits[|deposits| - 1].amount
  }

  /** The `reduce` that adds up the amounts of the queried deposits, starting at 0. */
  method ReduceAmounts(deposits: seq<Deposit>) returns (total: int)
    ensures total == SumAmounts(deposits)
  {
    total := 0;
    var i := 0;
    while i < |deposits|
      invariant 0 <= i <= |deposits|
      invariant total == SumAmounts(deposits[..i])
    {
      assert deposits[..i + 1][..i] == deposits[..i];
      total := total + deposits[i].amount;
      i := i + 1;
    }
    assert deposits[..i] == deposits;
  }

  /** The locked amount of user `u`: the sum over exactly `u`'s Processing deposits. */
  function Locked(deposits: seq<Deposit>, u: int): int {
    SumAmounts(ProcessingDeposits(deposits, u))
  }

  /** Sums of the same deposits in any order agree, so the locked amount does not
      depend on the order the store returns rows in. */
  lemma {:induction false} SumAmountsPermutation(a: seq<Deposit>, b: seq<Deposit>)
    requires multiset(a) == multiset(b)
    ensures SumAmounts(a) == SumAmounts(b)
    decreases |a|
  {
    if |a| > 0 {
      var last := a[|a| - 1];
      assert a == a[..|a| - 1] + [last];
      assert last in multiset(b);
      var k :| 0 <= k < |b| && b[k] == last;
      var b' := b[..k] + b[k + 1..];
      assert b == b[..k] + [last] + b[k + 1..];
      assert multiset(b) == multiset(b') + multiset{last};
      assert multiset(a) == multiset(a[..|a| - 1]) + multiset{last};
      assert multiset(b') == multiset(b) - multiset{last};
      assert multiset(a[..|a| - 1]) == multiset(a) - multiset{last};
      SumAmountsPermutation(a[..|a| - 1], b');
      SumAmountsRemove(b, k);
    }
  }

  /** Taking one deposit out of a sequence lowers its sum by that deposit's amount. */
  lemma {:induction false} SumAmountsRemove(b: seq<Deposit>, k: int)
    requires 0 <= k < |b|
    ensures SumAmounts(b) == SumAmounts(b[..k] + b[k + 1..]) + b[k].amount
    decreases |b|
  {
    var n := |b|;
    if k < n - 1 {
      var c := b[..k] + b[k + 1..];
      assert c[..|c| - 1] == b[..n - 1][..k] + b[..n - 1][k + 1..];
      assert c[|c| - 1] == b[n - 1];
      SumAmountsRemove(b[..n - 1], k);
    } else {
      assert b[..k] + b[k + 1..] == b[..n - 1];
    }
  }

  /** Appending a deposit adds its amount to its owner's locked amount while it is
      Processing, and leaves everyone else's locked amount as it was. */
  lemma LockedAppend(deposits: seq<Deposit>, d: Deposit, u: int)
    ensures Locked(deposits + [d], u) == Locked(deposits, u) + (if IsLocking(d, u) then d.amount else 0)
  {
  }

  /** The figures on the balance card, in minor units. */
  datatype BalanceCard = BalanceCard(amount: int, locked: int)

  /** The balance card of user `u`: `{0, 0}` when `u` has no balance row (whatever
      deposits are Processing); otherwise the locked amount and the available amount,
      which together make up the raw stored balance. Nothing is clamped, so the
      available amount is negative when more is locked than is stored. */
  function GetBalance(s: State, u: int): (r: BalanceCard)
    ensures BalanceOf(s.balances, u).None? ==> r == BalanceCard(0, 0)
    ensures BalanceOf(s.balances, u).Some? ==>
      && r.locked == SumAmounts(ProcessingDeposits(s.deposits, u))
      && r.amount + r.locked == BalanceOf(s.balances, u).value
  {
    match BalanceOf(s.balances, u)
    case None => BalanceCard(0, 0)
    case Some(raw) =>
      var locked := Locked(s.deposits, u);
      BalanceCard(raw - locked, locked)
  }
}

=== FILE: dashboard.dfy ===
/**
 The dashboard's own computations: the greeting name, and the raw balance and
 locked amount shown in its stat tiles (in minor units, before formatting).
 */
module Dashboard {
  import opened Ledger
  import Balance

  /** Upper case of one character; only the ASCII letters a-z change. */
  function UpperChar(c: char): (r: char)
    ensures 'a' <= c <= 'z' ==> 'A' <= r <= 'Z' && r as int == c as int - 32
    ensures !('a' <= c <= 'z') ==> r == c
  {
    if 'a' <= c <= 'z' then (c as int - 32) as char else c
  }

  /** The greeting name: "User" when the stored name is null or empty; otherwise the
      name with its first character upper-cased and the rest untouched. */
  function CapitalizeFirstLetter(name: Option<string>): (r: string)
    ensures name.None? || name.value == "" ==> r == "User"
    ensures name.Some? && name.value != "" ==>
      && |r| == |name.value|
      && r[0] == UpperChar(name.value[0])
      && r[1..] == name.value[1..]
  {
    if name.None? || name.value == "" then "User"
    else [UpperChar(name.value[0])] + name.value[1..]
  }

  /** Capitalising a greeting a second time changes nothing. */
  lemma CapitalizeIdempotent(name: Option<string>)
    ensures CapitalizeFirstLetter(Some(CapitalizeFirstLetter(name))) == CapitalizeFirstLetter(name)
  {
  }

  /** The raw balance and locked amount of the dashboard's tiles. */
  datatype Tiles = Tiles(balance: int, locked: int)

  /** The dashboard's figures for user `u`: the raw stored balance, 0 when there is no
      balance row, and the locked amount summed over `u`'s Processing deposits whether
      or not a balance row exists. */
  function DashboardTiles(s: State, u: int): (r: Tiles)
    ensures BalanceOf(s.balances, u).None? ==> r.balance == 0
    ensures BalanceOf(s.balances, u).Some? ==> r.balance == BalanceOf(s.balances, u).value
    ensures r.locked == Balance.SumAmounts(Balance.ProcessingDeposits(s.deposits, u))
  {
    var raw := match BalanceOf(s.balances, u) case Some(a) => a case None => 0;
    Tiles(raw, Balance.Locked(s.deposits, u))
  }

  /** When a balance row exists, the dashboard and the balance card agree: the same
      locked amount, and the dashboard's raw balance is the card's available plus locked.
      Without a row the card shows {0, 0} while the dashboard still shows what is locked. */
  lemma DashboardMatchesBalanceCard(s: State, u: int)
    ensures var card := Balance.GetBalance(s, u);
      var tiles := DashboardTiles(s, u);
      if BalanceOf(s.balances, u).Some? then
        tiles.locked == card.locked && tiles.balance == card.amount + card.locked
      else
        card == Balance.BalanceCard(0, 0) && tiles.balance == 0 && tiles.locked == Balance.Locked(s.deposits, u)
  {
  }
}

=== FILE: history.dfy ===
/**
 The read-only history projections: the signed-in user's peer-to-peer transfers,
 labelled with a direction and a counterparty, and the user's on-ramp deposits.
 */
module History {
  import opened Ledger

  datatype Direction = Received | Sent

  /** One line of the transfer history. `user` is the counterparty's nullable name. */
  datatype P2PRow = P2PRow(id: int, amount: int, time: int, direction: Direction, user: Option<string>)

  /** The store query's filter: transfers that `u` sent or received. */
  predicate Involves(t: TransferRecord, u: int) {
    t.toUserId == u || t.fromUserId == u
  }

  /** The store query for `u`'s transfers, read in the table's sequence order (the store leaves it unspecified). */
  function InvolvingTransfers(transfers: seq<TransferRecord>, u: int): (r: seq<TransferRecord>)
    ensures |r| <= |transfers|
    ensures forall i :: 0 <= i < |r| ==> Involves(r[i], u)
    ensures forall t :: multiset(r)[t] == (if Involves(t, u) then multiset(transfers)[t] else 0)
  {
    if |transfers| == 0 then []
    else
      var last := transfers[|transfers| - 1];
      var rest := InvolvingTransfers(transfers[..|transfers| - 1], u);
      assert transfers == transfers[..|transfers| - 1] + [last];
      if Involves(last, u) then rest + [last] else rest
  }

  /** The party shown next to a transfer: the sender when `u` received it, else the recipient. */
  function Counterparty(t: TransferRecord, u: int): int {
    if t.toUserId == u then t.fromUserId else t.toUserId
  }

  /** How one transfer is shown to user `u`: "received" exactly when `u` is the
      recipient (so a transfer to oneself reads as received), and the counterparty's
      name follows the direction. Id and amount are carried over unchanged. */
  function RowOf(users: seq<User>, t: TransferRecord, u: int): (r: P2PRow)
    ensures r.id == t.id && r.amount == t.amount && r.time == t.timestamp
    ensures r.direction == Received <==> t.toUserId == u
    ensures r.direction == Received ==> r.user == NameOf(users, t.fromUserId)
    ensures r.direction == Sent ==> r.user == NameOf(users, t.toUserId)
  {
    P2PRow(t.id, t.amount, t.timestamp, if t.toUserId == u then Received else Sent, NameOf(users, Counterparty(t, u)))
  }

  /** The transfer history of user `u`: one row per queried transfer, in query order. */
  function P2PHistory(users: seq<User>, transfers: seq<TransferRecord>, u: int): (r: seq<P2PRow>)
    ensures |r| == |InvolvingTransfers(transfers, u)|
    ensures forall i :: 0 <= i < |r| ==> r[i] == RowOf(users, InvolvingTransfers(transfers, u)[i], u)
  {
    var q := InvolvingTransfers(transfers, u);
    seq(|q|, i requires 0 <= i < |q| => RowOf(users, q[i], u))
  }

  /** Every transfer `u` took part in shows up in `u`'s history. */
  lemma HistoryComplete(users: seq<User>, transfers: seq<TransferRecord>, u: int, j: int)
    requires 0 <= j < |transfers| && Involves(transfers[j], u)
    ensures RowOf(users, transfers[j], u) in P2PHistory(users, transfers, u)
  {
  }

  /** Every row of `u`'s history comes from a transfer `u` took part in, with that
      transfer's id and amount: transfers between other users never show up. */
  lemma HistorySound(users: seq<User>, transfers: seq<TransferRecord>, u: int, i: int)
    requires 0 <= i < |P2PHistory(users, transfers, u)|
    ensures exists j :: (0 <= j < |transfers| && Involves(transfers[j], u) &&
                         P2PHistory(users, transfers, u)[i] == RowOf(users, transfers[j], u))
  {
  }

  /** The counterparty is the other party of the transfer, except on a transfer to
      oneself, where both ends are `u`. */
  lemma CounterpartyIsOtherParty(users: seq<User>, t: TransferRecord, u: int)
    requires Involves(t, u)
    ensures Counterparty(t, u) == u <==> t.fromUserId == t.toUserId
    ensures RowOf(users, t, u).direction == Sent ==> t.fromUserId == u && t.toUserId != u
  {
  }

  /** One line of the deposit history, with the status as the text the store holds. */
  datatype OnRampRow = OnRampRow(time: int, amount: int, status: string, provider: string)

  function StatusText(status: DepositStatus): string {
    match status
    case Processing => "Processing"
    case Success => "Success"
    case Failure => "Failure"
  }

  /** The store query for `u`'s deposits, read in the table's sequence order (the store leaves it unspecified). */
  function UserDeposits(deposits: seq<Deposit>, u: int): (r: seq<Deposit>)
    ensures |r| <= |deposits|
    ensures forall i :: 0 <= i < |r| ==> r[i].userId == u
    ensures forall d :: multiset(r)[d] == (if d.userId == u then multiset(deposits)[d] else 0)
  {
    if |deposits| == 0 then []
    else
      var last := deposits[|deposits| - 1];
      var rest := UserDeposits(deposits[..|deposits| - 1], u);
      assert deposits == deposits[..|deposits| - 1] + [last];
      if last.userId == u then rest + [last] else rest
  }

  /** The deposit history of user `u`: exactly `u`'s deposits, in query order, each with
      its start time, amount, status and provider copied unchanged. */
  function OnRampHistory(deposits: seq<Deposit>, u: int): (r: seq<OnRampRow>)
    ensures |r| == |UserDeposits(deposits, u)|
    ensures forall i :: 0 <= i < |r| ==> r[i] == RowOfDeposit(UserDeposits(deposits, u)[i])
  {
    var q := UserDeposits(deposits, u);
    seq(|q|, i requires 0 <= i < |q| => RowOfDeposit(q[i]))
  }

  /** The deposit row built from one stored deposit. */
  function RowOfDeposit(d: Deposit): OnRampRow {
    OnRampRow(d.startTime, d.amount, StatusText(d.status), d.provider)
  }

  /** Each of `u`'s deposits shows up in `u`'s deposit history, and each row of it is
      a copy of one of `u`'s deposits; other users' deposits never show up. */
  lemma OnRampHistoryExactly(deposits: seq<Deposit>, u: int, d: Deposit)
    ensures d in deposits && d.userId == u ==> RowOfDeposit(d) in OnRampHistory(deposits, u)
    ensures forall row :: row in OnRampHistory(deposits, u) ==>
      exists j :: 0 <= j < |deposits| && deposits[j].userId == u && row == RowOfDeposit(deposits[j])
  {
  }
}

=== FILE: ledger.dfy ===
/**
 The abstract state of the wallet ledger: users, one balance row per user,
 the append-only log of peer-to-peer transfers and the on-ramp deposits.
 Amounts are integer minor units (paise); times are integer milliseconds.
 */
module Ledger {

  datatype Option<+T> = None | Some(value: T)

  /** A registered user. `number` is the phone number used as the transfer handle;
      `name` is nullable in the store. */
  datatype User = User(id: int, number: string, name: Option<string>)

  /** One completed peer-to-peer transfer record. */
  datatype TransferRecord = TransferRecord(id: int, fromUserId: int, toUserId: int, amount: int, timestamp: int)

  datatype DepositStatus = Processing | Success | Failure

  /** One on-ramp (bank to wallet) deposit. */
  datatype Deposit = Deposit(userId: int, amount: int, provider: string, status: DepositStatus, startTime: int)

  /** One row of the balance table: the raw stored amount of one user. */
  datatype BalanceRow = BalanceRow(userId: int, amount: int)

  /** The store's tables. A user without a balance row has none in `balances`;
      `nextTransferId` is the value the store's auto-increment key hands to the next
      transfer record. */
  datatype State = State(
    users: seq<User>,
    balances: seq<BalanceRow>,
    transfers: seq<TransferRecord>,
    deposits: seq<Deposit>,
    nextTransferId: int)

  /** Ids and phone numbers are unique keys of the user table. */
  ghost predicate UniqueUsers(users: seq<User>) {
    forall i, j :: 0 <= i < |users| && 0 <= j < |users| && i != j ==>
      users[i].id != users[j].id && users[i].number != users[j].number
  }

  /** Transfer ids were handed out in increasing order, all below the next one. */
  ghost predicate IdsIncreasing(transfers: seq<TransferRecord>, next: int) {
    && (forall i, j :: 0 <= i < j < |transfers| ==> transfers[i].id < transfers[j].id)
    && (forall i :: 0 <= i < |transfers| ==> transfers[i].id < next)
  }

  /** `userId` is a unique key of the balance table. */
  ghost predicate UniqueRows(balances: seq<BalanceRow>) {
    forall i, j :: 0 <= i < j < |balances| ==> balances[i].userId != balances[j].userId
  }

  ghost predicate WellFormed(s: State) {
    UniqueUsers(s.users) && UniqueRows(s.balances) && IdsIncreasing(s.transfers, s.nextTransferId)
  }

  ghost predicate NonNegativeBalances(balances: seq<BalanceRow>) {
    forall i :: 0 <= i < |balances| ==> balances[i].amount >= 0
  }

  /** Looks a user up by phone number (a unique key of the user table). */
  function FindByNumber(users: seq<User>, number: string): (r: Option<User>)
    ensures r.Some? ==> r.value in users && r.value.number == number
    ensures r.None? <==> forall i :: 0 <= i < |users| ==> users[i].number != number
  {
    if |users| == 0 then None
    else if users[0].number == number then Some(users[0])
    else FindByNumber(users[1..], number)
  }

  /** On a table whose numbers are unique, the lookup finds exactly the user holding the number. */
  lemma FindByNumberUnique(users: seq<User>, i: int)
    requires UniqueUsers(users)
    requires 0 <= i < |users|
    ensures FindByNumber(users, users[i].number) == Some(users[i])
  {
  }

  /** The display name of the user with the given id; `None` when the name is null
      (or, in a store that violates the foreign key, when there is no such user). */
  function NameOf(users: seq<User>, id: int): (r: Option<string>)
    ensures r.Some? ==> exists i :: 0 <= i < |users| && users[i].id == id && users[i].name == r
    ensures (exists i :: 0 <= i < |users| && users[i].id == id) ==>
      exists i :: 0 <= i < |users| && users[i].id == id && users[i].name == r
    ensures (forall i :: 0 <= i < |users| ==> users[i].id != id) ==> r.None?
  {
    if |users| == 0 then None
    else if users[0].id == id then users[0].name
    else NameOf(users[1..], id)
  }

  /** On a table whose ids are unique, the name read for a user's id is that user's name:
      a corollary of the contract of `NameOf`. */
  lemma NameOfFound(users: seq<User>, i: int)
    requires UniqueUsers(users)
    requires 0 <= i < |users|
    ensures NameOf(users, users[i].id) == users[i].name
  {
  }

  /** The raw amount in the balance row of user `u`, if the user has a row. */
  function BalanceOf(balances: seq<BalanceRow>, u: int): (r: Option<int>)
    ensures r.Some? <==> exists i :: 0 <= i < |balances| && balances[i].userId == u
  {
    if |balances| == 0 then None
    else if balances[0].userId == u then Some(balances[0].amount)
    else BalanceOf(balances[1..], u)
  }

  /** A reading is always the amount stored in a row of that user. */
  lemma {:induction false} BalanceOfReadsRow(balances: seq<BalanceRow>, u: int)
    requires BalanceOf(balances, u).Some?
    ensures exists i :: 0 <= i < |balances| && balances[i].userId == u && balances[i].amount == BalanceOf(balances, u).value
  {
    if balances[0].userId != u {
      BalanceOfReadsRow(balances[1..], u);
      assert forall k :: 0 <= k < |balances| - 1 ==> balances[1..][k] == balances[k + 1];
    }
  }

  /** In a table with unique keys, the balance read for a row's owner is that row's amount. */
  lemma {:induction false} FirstRowIsBalance(balances: seq<BalanceRow>, i: int)
    requires UniqueRows(balances)
    requires 0 <= i < |balances|
    ensures BalanceOf(balances, balances[i].userId) == Some(balances[i].amount)
  {
    if i > 0 {
      UniqueRowsTail(balances);
      assert balances[1..][i - 1] == balances[i];
      FirstRowIsBalance(balances[1..], i - 1);
    }
  }

  /** Subtracts `amount` from user `u`'s row, as the store's `decrement` update does;
      every other row is kept as it is. */
  function Decrement(balances: seq<BalanceRow>, u: int, amount: int): (r: seq<BalanceRow>)
    ensures |r| == |balances|
    ensures forall i :: 0 <= i < |r| ==> r[i].userId == balances[i].userId
    ensures forall i :: 0 <= i < |r| ==>
      r[i].amount == (if balances[i].userId == u then balances[i].amount - amount else balances[i].amount)
  {
    if |balances| == 0 then []
    else
      var head := if balances[0].userId == u then BalanceRow(u, balances[0].amount - amount) else balances[0];
      [head] + Decrement(balances[1..], u, amount)
  }

  /** After a decrement, `u`'s row (if any) reads `amount` less and every other row reads as before. */
  lemma {:induction false} BalanceOfDecrement(balances: seq<BalanceRow>, u: int, amount: int, v: int)
    ensures BalanceOf(Decrement(balances, u, amount), v) ==
      (if v == u && BalanceOf(balances, u).Some? then Some(BalanceOf(balances, u).value - amount)
       else BalanceOf(balances, v))
  {
    if |balances| > 0 {
      var r := Decrement(balances, u, amount);
      assert r[1..] == Decrement(balances[1..], u, amount);
      if balances[0].userId == v {
        assert BalanceOf(r, v) == Some(r[0].amount);
      } else {
        assert BalanceOf(r, v) == BalanceOf(r[1..], v);
        BalanceOfDecrement(balances[1..], u, amount, v);
      }
    }
  }

  /** After the debit `u`'s row reads its old amount less `amount`. */
  lemma DebitLeavesRemainder(balances: seq<BalanceRow>, u: int, amount: int)
    requires BalanceOf(balances, u).Some?
    ensures BalanceOf(Decrement(balances, u, amount), u) == Some(BalanceOf(balances, u).value - amount)
  {
    BalanceOfDecrement(balances, u, amount, u);
  }

  /** The sum of all raw balances in the store. */
  function Total(balances: seq<BalanceRow>): int {
    if |balances| == 0 then 0 else balances[0].amount + Total(balances[1..])
  }

  /** Decrementing the single row of `u` lowers the store's total by exactly `amount`. */
  lemma {:induction false} TotalDecrement(balances: seq<BalanceRow>, u: int, amount: int)
    requires UniqueRows(balances)
    requires BalanceOf(balances, u).Some?
    ensures Total(Decrement(balances, u, amount)) == Total(balances) - amount
  {
    var r := Decrement(balances, u, amount);
    assert r[1..] == Decrement(balances[1..], u, amount);
    UniqueRowsTail(balances);
    if balances[0].userId == u {
      DecrementAbsent(balances[1..], u, amount);
    } else {
      TotalDecrement(balances[1..], u, amount);
    }
  }

  /** A decrement aimed at a user without a row changes nothing. */
  lemma DecrementAbsent(balances: seq<BalanceRow>, u: int, amount: int)
    requires BalanceOf(balances, u).None?
    ensures Decrement(balances, u, amount) == balances
  {
  }

  /** Dropping the first row keeps the keys unique, and its owner has no other row. */
  lemma UniqueRowsTail(balances: seq<BalanceRow>)
    requires UniqueRows(balances) && |balances| > 0
    ensures UniqueRows(balances[1..])
    ensures BalanceOf(balances[1..], balances[0].userId).None?
  {
    assert forall i :: 0 <= i < |balances| - 1 ==> balances[1..][i] == balances[i + 1];
  }
}

=== FILE: onramp_view.dfy ===
/**
 The recent-deposits card: the newest-first ordering of the deposit rows, the
 empty-list branch and the colour given to each status.
 */
module OnRampView {
  import Ledger
  import opened History

  /** Newest first: start times never increase along the list. */
  ghost predicate SortedNewestFirst(rows: seq<OnRampRow>) {
    forall i, j :: 0 <= i < j < |rows| ==> rows[i].time >= rows[j].time
  }

  /** Places `row` into a newest-first list, after every row at least as new as it. */
  function Insert(row: OnRampRow, sorted: seq<OnRampRow>): (r: seq<OnRampRow>)
    requires SortedNewestFirst(sorted)
    ensures SortedNewestFirst(r)
    ensures multiset(r) == multiset(sorted) + multiset{row}
    ensures |r| == |sorted| + 1
    ensures r[0] == (if |sorted| == 0 || sorted[0].time < row.time then row else sorted[0])
  {
    if |sorted| == 0 then [row]
    else if sorted[0].time < row.time then [row] + sorted
    else
      var rest := Insert(row, sorted[1..]);
      assert sorted == [sorted[0]] + sorted[1..];
      assert rest[0].time <= sorted[0].time;
      var r := [sorted[0]] + rest;
      assert forall k :: 1 <= k < |r| ==> r[k] == rest[k - 1];
      assert multiset(r) == multiset{sorted[0]} + multiset(rest);
      r
  }

  /** The comparator `b.time - a.time` applied to a copy of the rows: the result is
      the same rows, newest first. The rows passed in are a value and stay as they were. */
  function SortByTimeDesc(rows: seq<OnRampRow>): (r: seq<OnRampRow>)
    ensures SortedNewestFirst(r)
    ensures multiset(r) == multiset(rows)
    ensures |r| == |rows|
  {
    if |rows| == 0 then []
    else
      assert rows == rows[..|rows| - 1] + [rows[|rows| - 1]];
      Insert(rows[|rows| - 1], SortByTimeDesc(rows[..|rows| - 1]))
  }

  /** The two shapes of the card: the "No Recent transactions" text, or the rows. */
  datatype Card = NoRecentTransactions | Listing(rows: seq<OnRampRow>)

  /** An empty list takes the "No Recent transactions" branch without sorting;
      any other list is shown sorted newest first. */
  function OnRampCard(rows: seq<OnRampRow>): (r: Card)
    ensures r.NoRecentTransactions? <==> |rows| == 0
    ensures r.Listing? ==> SortedNewestFirst(r.rows) && multiset(r.rows) == multiset(rows)
  {
    if |rows| == 0 then NoRecentTransactions else Listing(SortByTimeDesc(rows))
  }

  /** The text colour of a status label: green for "Success", red for "Failure",
      yellow for "Processing" and gray for any other text. */
  function StatusColor(status: string): (r: string)
    ensures status == "Success" ==> r == "text-green-600"
    ensures status == "Failure" ==> r == "text-red-600"
    ensures status == "Processing" ==> r == "text-yellow-600"
    ensures status !in {"Success", "Failure", "Processing"} ==> r == "text-gray-600"
  {
    if status == "Success" then "text-green-600"
    else if status == "Failure" then "text-red-600"
    else if status == "Processing" then "text-yellow-600"
    else "text-gray-600"
  }

  /** Every status the store can hold gets its own colour; gray never shows for a stored deposit. */
  lemma StoredStatusesDistinctColours(a: Ledger.DepositStatus, b: Ledger.DepositStatus)
    ensures StatusColor(StatusText(a)) != "text-gray-600"
    ensures a != b ==> StatusColor(StatusText(a)) != StatusColor(StatusText(b))
  {
  }
}

=== FILE: properties.dfy ===
/**
 How the transfer action shows up in the read-only projections: the balance card
 and the transfer history of the sender, the recipient and everyone else.
 */
module LedgerProperties {
  import opened Ledger
  import opened Transfer
  import Balance
  import opened History

  /** A successful transfer lowers the sender's available balance by `amount` and
      leaves the sender's locked amount alone. */
  lemma TransferOnSenderCard(s: State, sender: int, to: string, amount: int, now: int)
    requires P2PTransfer(s, Some(sender), to, amount, now).message == TransferSuccessful
    ensures var s' := P2PTransfer(s, Some(sender), to, amount, now).state;
      && Balance.GetBalance(s', sender).amount == Balance.GetBalance(s, sender).amount - amount
      && Balance.GetBalance(s', sender).locked == Balance.GetBalance(s, sender).locked
  {
    SuccessDebitsSender(s, sender, to, amount, now);
  }

  /** The funds check reads the raw stored amount, not the available one, so a transfer
      may spend money still locked in Processing deposits: after a successful transfer the
      sender's available amount is negative exactly when it was below `amount` before. */
  lemma TransferCanSpendLocked(s: State, sender: int, to: string, amount: int, now: int)
    requires P2PTransfer(s, Some(sender), to, amount, now).message == TransferSuccessful
    ensures Balance.GetBalance(P2PTransfer(s, Some(sender), to, amount, now).state, sender).amount < 0
      <==> Balance.GetBalance(s, sender).amount < amount
  {
    TransferOnSenderCard(s, sender, to, amount, now);
  }

  /** A user with 2000 stored, all of it locked in one Processing deposit, shows 0
      available, yet may send the 2000 (here to their own number) and is left showing -2000. */
  lemma ScenarioSpendsLocked(provider: string, time: int, now: int)
    ensures var s := State([User(1, "1", None)], [BalanceRow(1, 2000)], [], [Deposit(1, 2000, provider, Processing, time)], 1);
      var r := P2PTransfer(s, Some(1), "1", 2000, now);
      && Balance.GetBalance(s, 1).amount == 0
      && r.message == TransferSuccessful
      && Balance.GetBalance(r.state, 1).amount == -2000
  {
    var d := Deposit(1, 2000, provider, Processing, time);
    assert [d][..0] == [];
    assert Balance.ProcessingDeposits([d], 1) == [d];
    assert Balance.SumAmounts([d]) == 2000;
    assert BalanceOf([BalanceRow(1, 2000)], 1) == Some(2000);
    assert BalanceOf([BalanceRow(1, 0)], 1) == Some(0);
  }

  /** A successful transfer leaves every other user's balance card unchanged, the
      recipient's included, since no credit is applied. */
  lemma TransferOnOtherCards(s: State, sender: int, to: string, amount: int, now: int, v: int)
    requires P2PTransfer(s, Some(sender), to, amount, now).message == TransferSuccessful
    requires v != sender
    ensures Balance.GetBalance(P2PTransfer(s, Some(sender), to, amount, now).state, v) == Balance.GetBalance(s, v)
  {
    SuccessKeepsOtherRows(s, sender, to, amount, now, v);
  }

  /** The query for `u`'s transfers over a log with one more record at the end is the old
      answer followed by that record when `u` took part in it. */
  lemma InvolvingAppend(transfers: seq<TransferRecord>, t: TransferRecord, u: int)
    ensures InvolvingTransfers(transfers + [t], u) ==
      InvolvingTransfers(transfers, u) + (if Involves(t, u) then [t] else [])
  {
  }

  /** The query for `u`'s deposits over a table with one more deposit at the end is the
      old answer followed by that deposit when it is `u`'s: the query keeps the table's sequence order. */
  lemma UserDepositsAppend(deposits: seq<Deposit>, d: Deposit, u: int)
    ensures UserDeposits(deposits + [d], u) ==
      UserDeposits(deposits, u) + (if d.userId == u then [d] else [])
  {
  }

  /** A history over a log with one more record at the end is the old history followed
      by that record's row when `u` took part in it. */
  lemma HistoryAppend(users: seq<User>, transfers: seq<TransferRecord>, t: TransferRecord, u: int)
    ensures P2PHistory(users, transfers + [t], u) ==
      P2PHistory(users, transfers, u) + (if Involves(t, u) then [RowOf(users, t, u)] else [])
  {
  }

  /** After a successful transfer, the sender's and the recipient's histories each gain
      exactly one row at the end, for the new record: "sent" for the sender (unless it
      was sent to themselves) and "received" for the recipient. Other users' histories
      are unchanged. */
  lemma TransferOnHistories(s: State, sender: int, to: string, amount: int, now: int, v: int)
    requires P2PTransfer(s, Some(sender), to, amount, now).message == TransferSuccessful
    ensures var s' := P2PTransfer(s, Some(sender), to, amount, now).state;
      var t := s'.transfers[|s.transfers|];
      && P2PHistory(s.users, s'.transfers, sender) == P2PHistory(s.users, s.transfers, sender) + [RowOf(s.users, t, sender)]
      && P2PHistory(s.users, s'.transfers, t.toUserId) == P2PHistory(s.users, s.transfers, t.toUserId) + [RowOf(s.users, t, t.toUserId)]
      && RowOf(s.users, t, t.toUserId).direction == Received
      && (t.toUserId != sender ==> RowOf(s.users, t, sender).direction == Sent)
      && (v != sender && v != t.toUserId ==> P2PHistory(s.users, s'.transfers, v) == P2PHistory(s.users, s.transfers, v))
  {
    SuccessState(s, sender, to, amount, now);
    var s' := P2PTransfer(s, Some(sender), to, amount, now).state;
    var t := s'.transfers[|s.transfers|];
    assert s'.transfers == s.transfers + [t];
    assert t.fromUserId == sender;
    HistoryAppend(s.users, s.transfers, t, sender);
    HistoryAppend(s.users, s.transfers, t, t.toUserId);
    HistoryAppend(s.users, s.transfers, t, v);
  }

  /** A sends 3000 of 10000 to B: A's row reads 7000, B's row still reads 0, and the
      log holds the one record A to B for 3000. */
  lemma ScenarioTransfer(now: int)
    ensures var a := User(1, "9000000001", Some("alice"));
      var b := User(2, "9000000002", Some("bob"));
      var s := State([a, b], [BalanceRow(1, 10000), BalanceRow(2, 0)], [], [], 1);
      var r := P2PTransfer(s, Some(1), "9000000002", 3000, now);
      && r.message == TransferSuccessful
      && BalanceOf(r.state.balances, 1) == Some(7000)
      && BalanceOf(r.state.balances, 2) == Some(0)
      && r.state.transfers == [TransferRecord(1, 1, 2, 3000, now)]
  {
  }

  /** A user with 2000 stored and one Processing deposit of 2000 has nothing available
      and 2000 locked. */
  lemma ScenarioLocked(provider: string, time: int)
    ensures var s := State([], [BalanceRow(3, 2000)], [], [Deposit(3, 2000, provider, Processing, time)], 1);
      Balance.GetBalance(s, 3) == Balance.BalanceCard(0, 2000)
  {
    var d := Deposit(3, 2000, provider, Processing, time);
    assert [d][..0] == [];
    assert Balance.ProcessingDeposits([d], 3) == [d];
    assert Balance.SumAmounts([d]) == 2000;
    assert BalanceOf([BalanceRow(3, 2000)], 3) == Some(2000);
  }
}

=== FILE: transfer.dfy ===
/**
 The peer-to-peer transfer action. The store's transaction block is one atomic,
 all-or-nothing step: every failure returns the state it was given.
 */
module Transfer {
  import opened Ledger

  /** The messages the action can answer with. */
  datatype Message = InvalidInput | AuthenticationFailed | UserNotFound | InsufficientFunds | TransferSuccessful

  /** The exact text the caller receives for each message. A caller can tell success
      from every refusal by the text alone. */
  function Text(m: Message): (r: string)
    ensures r == "Transfer successful" <==> m == TransferSuccessful
    ensures r != ""
  {
    match m
    case InvalidInput => "Invalid input data"
    case AuthenticationFailed => "Authentication failed"
    case UserNotFound => "User not found"
    case InsufficientFunds => "Insufficient funds"
    case TransferSuccessful => "Transfer successful"
  }

  /** Different messages reach the caller as different texts. */
  lemma TextsDistinct(a: Message, b: Message)
    ensures a != b ==> Text(a) != Text(b)
  {
  }

  /** The message returned to the caller together with the state after the call. */
  datatype Outcome = Outcome(message: Message, state: State)

  /** The input check that runs before anything else: an empty phone number or an
      amount that is zero or negative is refused. */
  predicate ValidInput(to: string, amount: int) {
    to != "" && amount > 0
  }

  /** `sender` is the id of the signed-in user (`None` when there is no session);
      `now` is the clock reading the record is stamped with. The sender is debited and
      one record is appended; the recipient's balance row is not touched. */
  function P2PTransfer(s: State, sender: Option<int>, to: string, amount: int, now: int): (r: Outcome)
    ensures r.message != TransferSuccessful ==> r.state == s
    ensures r.message == TransferSuccessful ==>
      && r.state.users == s.users
      && r.state.deposits == s.deposits
      && |r.state.transfers| == |s.transfers| + 1
      && r.state.transfers[..|s.transfers|] == s.transfers
  {
    if !ValidInput(to, amount) then Outcome(InvalidInput, s)
    else if sender.None? then Outcome(AuthenticationFailed, s)
    else
      var from := sender.value;
      var toUser := FindByNumber(s.users, to);
      if toUser.None? then Outcome(UserNotFound, s)
      else
        var fromBalance := BalanceOf(s.balances, from);
        if fromBalance.None? || fromBalance.value < amount then Outcome(InsufficientFunds, s)
        else
          var record := TransferRecord(s.nextTransferId, from, toUser.value.id, amount, now);
          var s' := s.(
            balances := Decrement(s.balances, from, amount),
            transfers := s.transfers + [record],
            nextTransferId := s.nextTransferId + 1);
          Outcome(TransferSuccessful, s')
  }

  /** An empty phone number or a non-positive amount is refused before the session is read. */
  lemma InvalidInputRejected(s: State, sender: Option<int>, to: string, amount: int, now: int)
    requires to == "" || amount <= 0
    ensures P2PTransfer(s, sender, to, amount, now) == Outcome(InvalidInput, s)
  {
  }

  /** Without a signed-in sender nothing is looked up and nothing changes. */
  lemma UnauthenticatedRejected(s: State, to: string, amount: int, now: int)
    requires to != "" && amount > 0
    ensures P2PTransfer(s, None, to, amount, now) == Outcome(AuthenticationFailed, s)
  {
  }

  /** A phone number no user holds is reported as an unknown user. */
  lemma UnknownRecipientRejected(s: State, sender: int, to: string, amount: int, now: int)
    requires to != "" && amount > 0
    requires forall i :: 0 <= i < |s.users| ==> s.users[i].number != to
    ensures P2PTransfer(s, Some(sender), to, amount, now) == Outcome(UserNotFound, s)
  {
  }

  /** A sender without a balance row, or whose row holds less than `amount`, is refused:
      no balance changes and no record is appended. */
  lemma InsufficientFundsRejected(s: State, sender: int, to: string, amount: int, now: int)
    requires to != "" && amount > 0
    requires exists i :: 0 <= i < |s.users| && s.users[i].number == to
    requires BalanceOf(s.balances, sender).None? || BalanceOf(s.balances, sender).value < amount
    ensures P2PTransfer(s, Some(sender), to, amount, now) == Outcome(InsufficientFunds, s)
  {
  }

  /** A transfer succeeds exactly when the input is valid, someone is signed in, the
      number belongs to a user and the sender's row holds at least `amount`
      (an amount equal to the whole balance is allowed). */
  lemma SucceedsIff(s: State, sender: Option<int>, to: string, amount: int, now: int)
    ensures P2PTransfer(s, sender, to, amount, now).message == TransferSuccessful <==>
      && to != "" && amount > 0
      && sender.Some?
      && (exists i :: 0 <= i < |s.users| && s.users[i].number == to)
      && BalanceOf(s.balances, sender.value).Some?
      && BalanceOf(s.balances, sender.value).value >= amount
  {
  }

  /** On success exactly one record naming the sender, the user holding the number and
      the amount is appended at the end of the log. */
  lemma SuccessAppendsRecord(s: State, sender: int, to: string, amount: int, now: int)
    requires P2PTransfer(s, Some(sender), to, amount, now).message == TransferSuccessful
    ensures exists i :: (0 <= i < |s.users| && s.users[i].number == to &&
                         P2PTransfer(s, Some(sender), to, amount, now).state.transfers ==
                           s.transfers + [TransferRecord(s.nextTransferId, sender, s.users[i].id, amount, now)])
  {
  }

  /** On success the sender's row drops by exactly `amount` and stays non-negative. */
  lemma SuccessDebitsSender(s: State, sender: int, to: string, amount: int, now: int)
    requires P2PTransfer(s, Some(sender), to, amount, now).message == TransferSuccessful
    ensures BalanceOf(s.balances, sender).Some?
    ensures var after := BalanceOf(P2PTransfer(s, Some(sender), to, amount, now).state.balances, sender);
      after == Some(BalanceOf(s.balances, sender).value - amount) && after.value >= 0
  {
    SuccessState(s, sender, to, amount, now);
    DebitLeavesRemainder(s.balances, sender, amount);
    var s' := P2PTransfer(s, Some(sender), to, amount, now).state;
    assert s'.balances == Decrement(s.balances, sender, amount);
  }

  /** On success every other user's row, the recipient's included, reads as before. */
  lemma SuccessKeepsOtherRows(s: State, sender: int, to: string, amount: int, now: int, v: int)
    requires P2PTransfer(s, Some(sender), to, amount, now).message == TransferSuccessful
    requires v != sender
    ensures BalanceOf(P2PTransfer(s, Some(sender), to, amount, now).state.balances, v) == BalanceOf(s.balances, v)
  {
    var s' := P2PTransfer(s, Some(sender), to, amount, now).state;
    SuccessState(s, sender, to, amount, now);
    assert s'.balances == Decrement(s.balances, sender, amount);
    BalanceOfDecrement(s.balances, sender, amount, v);
  }

  /** As written the action only debits: a successful transfer lowers the sum of all
      raw balances by exactly `amount`, because nothing is credited to the recipient. */
  lemma SuccessLowersTotal(s: State, sender: int, to: string, amount: int, now: int)
    requires UniqueRows(s.balances)
    requires P2PTransfer(s, Some(sender), to, amount, now).message == TransferSuccessful
    ensures Total(P2PTransfer(s, Some(sender), to, amount, now).state.balances) == Total(s.balances) - amount
  {
    TotalDecrement(s.balances, sender, amount);
  }

  /** Every call keeps the store well formed and keeps balances non-negative. */
  lemma PreservesInvariants(s: State, sender: Option<int>, to: string, amount: int, now: int)
    requires WellFormed(s) && NonNegativeBalances(s.balances)
    ensures WellFormed(P2PTransfer(s, sender, to, amount, now).state)
    ensures NonNegativeBalances(P2PTransfer(s, sender, to, amount, now).state.balances)
  {
    var r := P2PTransfer(s, sender, to, amount, now);
    if r.message == TransferSuccessful {
      var from := sender.value;
      var rows := r.state.balances;
      assert rows == Decrement(s.balances, from, amount);
      forall i | 0 <= i < |rows|
        ensures rows[i].amount >= 0
      {
        if s.balances[i].userId == from {
          FirstRowIsBalance(s.balances, i);
        }
      }
      var ts := r.state.transfers;
      assert ts == s.transfers + [ts[|s.transfers|]];
      assert ts[|s.transfers|].id == s.nextTransferId;
    }
  }

  /** Two transfers from the same sender that together ask for more than the sender's
      row holds cannot both succeed: once the first has gone through, the second is
      refused for insufficient funds and changes nothing. */
  lemma NoDoubleSpend(s: State, sender: int, to: string, amount: int, now: int, to2: string, amount2: int, now2: int)
    requires BalanceOf(s.balances, sender).Some?
    requires amount + amount2 > BalanceOf(s.balances, sender).value
    requires P2PTransfer(s, Some(sender), to, amount, now).message == TransferSuccessful
    requires to2 != "" && amount2 > 0
    requires exists i :: 0 <= i < |s.users| && s.users[i].number == to2
    ensures var s1 := P2PTransfer(s, Some(sender), to, amount, now).state;
      P2PTransfer(s1, Some(sender), to2, amount2, now2) == Outcome(InsufficientFunds, s1)
  {
    DebitLeavesRemainder(s.balances, sender, amount);
    SuccessState(s, sender, to, amount, now);
    var s1 := P2PTransfer(s, Some(sender), to, amount, now).state;
    assert s1.balances == Decrement(s.balances, sender, amount) && s1.users == s.users;
    InsufficientFundsRejected(s1, sender, to2, amount2, now2);
  }

  /** The state a successful transfer leaves behind, spelled out. */
  lemma SuccessState(s: State, sender: int, to: string, amount: int, now: int)
    requires P2PTransfer(s, Some(sender), to, amount, now).message == TransferSuccessful
    ensures ValidInput(to, amount)
    ensures FindByNumber(s.users, to).Some?
    ensures BalanceOf(s.balances, sender).Some? && BalanceOf(s.balances, sender).value >= amount
    ensures P2PTransfer(s, Some(sender), to, amount, now).state == s.(
      balances := Decrement(s.balances, sender, amount),
      transfers := s.transfers + [TransferRecord(s.nextTransferId, sender, FindByNumber(s.users, to).value.id, amount, now)],
      nextTransferId := s.nextTransferId + 1)
  {
  }

  /** Nothing stops a user from sending to their own number: with enough funds the
      transfer succeeds and the record names the sender on both ends. */
  lemma SelfTransferAllowed(s: State, i: int, amount: int, now: int)
    requires UniqueUsers(s.users)
    requires 0 <= i < |s.users| && s.users[i].number != ""
    requires BalanceOf(s.balances, s.users[i].id).Some?
    requires 0 < amount <= BalanceOf(s.balances, s.users[i].id).value
    ensures var r := P2PTransfer(s, Some(s.users[i].id), s.users[i].number, amount, now);
      && r.message == TransferSuccessful
      && r.state.transfers == s.transfers + [TransferRecord(s.nextTransferId, s.users[i].id, s.users[i].id, amount, now)]
  {
  }
}
